=== FILE: README.md ===
# Onboarding form: validation and submit

A Dafny model of the onboarding step of the FinPlan Pro personal finance
tracker (`src/components/OnboardingForm.tsx`). The step collects eight text
fields:

- name
- monthly income
- current savings
- monthly expenses
- current investments
- savings goal
- timeframe in months
- risk tolerance

The component holds two pieces of logic, and both are modelled:

- **The validation schema** (`formSchema`). It is a pure validator.
  - Each of the seven text fields must be a string of a minimum length. The name needs 2; the others need 1.
  - The risk tolerance must only be present.
  - Every field is checked, so validation does not stop at the first failure.
  - The result is either the profile, unchanged, or one message per failing field.
- **The submit handler** (`onSubmit`). It runs only on validated values.
  - It removes the stored goal list.
  - It stores the profile under `userData` and the string `"true"` under `onboardingComplete`.
  - It writes a one-element goal list to `financialGoals`: goal `1`, named "Savings Target". The target is `parseFloat(savingsGoal)`, the current amount is `parseFloat(currentSavings)`, and the timeline is `` `${parseInt(timeframe)} months` ``.
  - It shows a welcome toast.
  - It calls `onComplete`.

Modules:

- `Wrappers`: `Option` and `Result`.
- `JsString`: JavaScript's `.length` for strings of Unicode scalar values. A string's length is counted in UTF-16 code units, which is what zod's `.min(n)` compares against.
- `JsNumber`: `parseInt` reduced to an optional sign and the longest run of decimal digits. `None` stands for NaN. The module also gives the decimal text a template literal produces.
- `LocalStore`: the browser store as an immutable `map<string, V>`.
  - A handler's side effects are a trace of `RemoveItem`, `SetItem`, `Notify` (the toast) and `Complete` (the `onComplete` callback).
  - `Run` performs a trace from first to last.
  - `ValueAfter` is an independent reading that scans a trace backwards.
- `Schema`: the fields, the raw input, the profile, the schema's rules and messages, and `Validate`. `ParseForm` is the object parser's field-by-field walk, proved equal to `Validate`.
- `Onboarding`:
  - the goal record and the structured store values;
  - `Commit`, the store writes of `onSubmit` as a pure function;
  - `SubmitEffects`, the handler's full effect trace;
  - `HandleSubmit`: validate, then commit only on success.

Modelling choices:

- **Store values.** The store holds structured values instead of JSON text:
  - `UserData(profile)` for the stored profile;
  - `Text("true")` for the onboarding flag;
  - `GoalList(goals)` for the goal list.
- **`parseFloat`** is a parameter of type `string -> Float`. `Float` is `Finite(real)`, `NaN`, `Infinity` or `NegInfinity`. Every property about the target and the current amount holds for any such function.
- **The risk tolerance.** The code's schema declares `riskTolerance: z.string(...)` with no further rule. It accepts any string, including the default `""`. The schema does not restrict the value; `low`/`medium`/`high` are only the select's options (src/components/OnboardingForm.tsx:219-221). The model follows the schema:
  - `Schema.RiskToleranceRule` states the rule.
  - `Schema.DefaultsRejected` shows that the untouched form reports seven errors, not eight.
  - The risk tolerance is modelled as possibly absent (`None`, an undefined value), which is what the schema's `required_error` answers. This form never submits an absent risk tolerance: its default is `""` (src/components/OnboardingForm.tsx:68), and the select only sets its option strings (src/components/OnboardingForm.tsx:212, 219-221). So the risk-tolerance message cannot be reached from this form.

## Model

| member | source | states |
|---|---|---|
| `Schema.Validate` | src/components/OnboardingForm.tsx:26-51 | Validation succeeds exactly when every field meets its rule. On success, the profile equals the input field for field, with no trimming or coercion. On failure, the error map's keys are exactly the failing fields, each mapped to its own message. |
| `Schema.Errors` | src/components/OnboardingForm.tsx:26-51 | The error map has an entry for every failing field, holding that field's message, and no entry for a passing field. |
| `Schema.ParseForm` | src/components/OnboardingForm.tsx:26-51 | Checking the fields one by one in declaration order, without stopping at the first failure, gives the same result as `Validate`. |
| `Schema.ErrorForField` | src/components/OnboardingForm.tsx:26-51 | Each field is reported exactly when it fails its rule, with its message. |
| `Schema.NameRule` | src/components/OnboardingForm.tsx:27-29 | "Name must be at least 2 characters." is reported exactly when the name is shorter than 2 UTF-16 code units. For a name of Unicode scalar values, that means the name is empty or is one character from the Basic Multilingual Plane (BMP). A single character outside the BMP, such as 😀, passes; a single BMP character, such as ✅, does not. |
| `Schema.AmountRule` | src/components/OnboardingForm.tsx:30-47 | Each of income, current savings, monthly expenses, current investments, savings goal and timeframe is reported, with its own message, exactly when it is the empty string. |
| `Schema.RiskToleranceRule` | src/components/OnboardingForm.tsx:48-50 | "Please select your risk tolerance." is reported exactly when the risk tolerance is absent. Any present string passes. |
| `Schema.ValidateOnlyValid` | src/components/OnboardingForm.tsx:26-51 | An accepted input yields a valid profile whose form values are exactly that input. |
| `Schema.ValidateAcceptsValid` | src/components/OnboardingForm.tsx:26-51 | Every valid profile, submitted as form values, validates to itself. |
| `Schema.ValidateRoundTrip` | src/components/OnboardingForm.tsx:26-51 | Validation succeeds with profile `p` if and only if `p` is valid and the input is `p`'s own values. |
| `Schema.DefaultsRejected` | src/components/OnboardingForm.tsx:60-69 | The default values fail on exactly the seven text fields. The default risk tolerance `""` passes. |
| `Schema.EmptyAbsentRejected` | src/components/OnboardingForm.tsx:26-51 | Empty text fields with the risk tolerance absent (undefined) fail on all eight fields. |
| `Schema.NoNumericCheck` | src/components/OnboardingForm.tsx:30-50 | Non-numeric amounts such as "abc" pass. So does a risk tolerance outside low/medium/high. |
| `JsString.Utf16ShorterThanTwo` | src/components/OnboardingForm.tsx:27-29 | A string is shorter than 2 code units exactly when it is empty or a single Basic Multilingual Plane character. |
| `JsString.Utf16NonEmpty` | src/components/OnboardingForm.tsx:30-47 | A string is at least 1 code unit long exactly when it is non-empty. |
| `JsNumber.DigitPrefix` | src/components/OnboardingForm.tsx:86 | `parseInt` reads the longest all-digit prefix: a prefix of the text, made only of digits, and followed by a non-digit or nothing. |
| `JsNumber.ParseIntDigits` | src/components/OnboardingForm.tsx:86 | Text that starts with digits parses to the value of those digits; whatever follows the first non-digit is ignored. |
| `JsNumber.ParseIntSigned` | src/components/OnboardingForm.tsx:86 | One leading `-` or `+` is stripped and then applied to the parsed value. |
| `JsNumber.ParseIntNoDigits` | src/components/OnboardingForm.tsx:86 | Text with no digit after the optional sign parses to NaN. |
| `JsNumber.ParseIntText` | src/components/OnboardingForm.tsx:86 | Parsing an integer's decimal text gives back that integer. |
| `JsNumber.NatTextValue` | src/components/OnboardingForm.tsx:86 | The decimal text of a natural number has that number as its value. |
| `JsNumber.ParseIntExamples` | src/components/OnboardingForm.tsx:86 | `parseInt("6.7")` is 6, `parseInt("-0")` is zero, and `parseInt("abc")` is NaN. |
| `LocalStore.RunAppend` | src/components/OnboardingForm.tsx:72-97 | Performing a trace in two pieces is the same as performing it whole. |
| `LocalStore.RunMatchesValueAfter` | src/components/OnboardingForm.tsx:72-97 | After a trace, each key holds the value written by the last effect that touched it, or its original value if nothing touched it. |
| `LocalStore.ValueAfterUntouched` | src/components/OnboardingForm.tsx:72-97 | A key no effect touches keeps its original value or absence. |
| `LocalStore.RunFramesUntouched` | src/components/OnboardingForm.tsx:72-97 | Performing a trace leaves every untouched key as it was. |
| `LocalStore.CompletesLastOnce` | src/components/OnboardingForm.tsx:91-96 | A trace that ends with the completion callback, and has it nowhere else, calls it exactly once. The first completion is found at the last position, so every store write precedes it. |
| `Onboarding.Commit` | src/components/OnboardingForm.tsx:72-89 | After commit, `financialGoals` holds exactly one goal: id 1, "Savings Target", target `parseFloat(savingsGoal)`, current `parseFloat(currentSavings)`, timeline from the timeframe. `userData` holds the profile verbatim and `onboardingComplete` holds "true". The keys are the old keys plus these three. Every other key is unchanged. |
| `Onboarding.SubmitEffectsCommit` | src/components/OnboardingForm.tsx:72-97 | Performing the handler's effects in program order produces exactly the committed store. |
| `Onboarding.SubmitEffectsOrder` | src/components/OnboardingForm.tsx:72-97 | The handler makes exactly four store operations first: it removes the goal list, stores the profile, stores the flag "true", and only then writes the new goal list. The welcome toast, with its fixed title and description, follows. `onComplete` is called exactly once, as the last act. |
| `Onboarding.SubmitEffectsFrame` | src/components/OnboardingForm.tsx:72-97 | The handler's trace writes or removes exactly `financialGoals`, `userData` and `onboardingComplete`, so every other key keeps its value or its absence. |
| `Onboarding.CommitForgetsManagedKeys` | src/components/OnboardingForm.tsx:73-89 | The outcome of a commit depends only on the keys the submission does not write. Any prior profile, flag or goal list is discarded. |
| `Onboarding.LastSubmissionWins` | src/components/OnboardingForm.tsx:72-89 | Committing `p1` and then `p2` is the same as committing only `p2`. Nothing is merged and earlier goals do not survive. |
| `Onboarding.CommitIdempotent` | src/components/OnboardingForm.tsx:72-89 | Committing the same values twice leaves the same store as committing once. |
| `Onboarding.InterruptedCommitLosesGoals` | src/components/OnboardingForm.tsx:74-89 | If the handler stops after one, two or three of its store operations, the store has no goal list at all. |
| `Onboarding.HandleSubmit` | src/components/OnboardingForm.tsx:72-107 | If validation fails, the field messages are shown, the trace is empty and the store is unchanged. If validation succeeds, no messages are shown, the store is the committed store, the trace ends with the single completion call, and the store is always what the trace produces. |
| `Onboarding.TimelineTruncates` | src/components/OnboardingForm.tsx:86 | For a timeframe of digits followed by a non-digit, the timeline is the digits' decimal value followed by " months". |
| `Onboarding.TimelineDropsFraction` | src/components/OnboardingForm.tsx:86 | The timeframe "6.7" gives the timeline "6 months". |
| `Onboarding.TimelineWholeMonths` | src/components/OnboardingForm.tsx:86 | The timeframe "12" gives the timeline "12 months". |
| `Onboarding.TimelineNotANumber` | src/components/OnboardingForm.tsx:86 | The timeframe "abc" gives the timeline "NaN months". |
| `Onboarding.TypicalSubmission` | src/components/OnboardingForm.tsx:72-89 | A typical complete submission validates and writes three things to the store, whatever it held before: the profile, the flag "true", and the single goal `[1, "Savings Target", parseFloat("100000"), parseFloat("10000"), "12 months"]`. |

## Left out

- Rendering is not modelled (src/components/OnboardingForm.tsx:99-236). This covers the labels, placeholders, the `Select` and its three options, and the inline display of messages. It is presentation only.
- react-hook-form and `zodResolver` plumbing is not modelled. This covers re-validation on each edit, field registration and the `handleSubmit` wrapper. It is library code. Only the schema's declared semantics are modelled, plus the fact that the handler runs only on values that validate (`HandleSubmit`).
- The toast is not rendered. It appears only as a `Notify` event with its title and description, because it is a fire-and-forget UI notification.
- The storage medium and JSON text are not modelled. The store is an in-memory map of structured values, so `JSON.stringify` is not modelled; in particular, it writes NaN and ±Infinity as `null`.
- `parseFloat` is a caller-supplied function and is not modelled. Decimal-to-floating-point conversion is outside the model.
- `parseInt` is simplified in three ways:
  - It does not skip leading whitespace.
  - It does not read a `0x`/`0X` prefix as hexadecimal.
  - Integers are unbounded. Digit runs above 2^53 would lose precision in JavaScript, and values of 10^21 or more would print in exponent notation; neither is modelled.
- Store write failures are not modelled. A `QuotaExceededError` thrown by `setItem` is not an error value of `Commit`. `Onboarding.InterruptedCommitLosesGoals` states what a store looks like after only the first one to three operations.
- Strings are sequences of Unicode scalar values; JavaScript strings containing unpaired surrogates are not represented. Such a string cannot be written as a Dafny string. For example, a name that is one lone surrogate has length 1 in JavaScript and fails the name rule, but it has no counterpart here.
- Non-string values in the text fields are not modelled. A field that is `undefined` or of another type would draw zod's generic type error. The form always supplies strings for the text fields, so only the risk tolerance is modelled as possibly absent.

=== FILE: js_number.dfy ===
/** The slice of JavaScript number handling that the goal's timeline uses:
    `parseInt(text)` reduced to an optional sign followed by the longest run of
    decimal digits, and the decimal text a template literal gives a number. */
module JsNumber {
  import opened Wrappers

  predicate IsDigit(c: char) {
    '0' <= c <= '9'
  }

  predicate AllDigits(s: string) {
    forall i :: 0 <= i < |s| ==> IsDigit(s[i])
  }

  function DigitValue(c: char): (d: nat)
    requires IsDigit(c)
    ensures d < 10
  {
    c as int - '0' as int
  }

  function DigitChar(d: nat): (c: char)
    requires d < 10
    ensures IsDigit(c) && DigitValue(c) == d
  {
    ('0' as int + d) as char
  }

  /** The longest prefix of `s` made only of decimal digits. */
  function DigitPrefix(s: string): (p: string)
    ensures p <= s
    ensures AllDigits(p)
    ensures |p| < |s| ==> !IsDigit(s[|p|])
  {
    if s == [] || !IsDigit(s[0]) then [] else [s[0]] + DigitPrefix(s[1..])
  }

  /** The value of a run of decimal digits, most significant first. */
  function DigitsValue(ds: string): nat
    requires AllDigits(ds)
  {
    if ds == [] then 0 else DigitsValue(ds[..|ds| - 1]) * 10 + DigitValue(ds[|ds| - 1])
  }

  /** The text after an optional leading sign. */
  function Unsigned(s: string): (u: string)
    ensures u == s || (|s| > 0 && (s[0] == '-' || s[0] == '+') && u == s[1..])
  {
    if |s| > 0 && (s[0] == '-' || s[0] == '+') then s[1..] else s
  }

  /** `parseInt(s)`: None stands for NaN, which JavaScript returns when no
      digit follows the optional sign.  Parsing stops at the first
      non-digit, so a fractional part is dropped. */
  function ParseInt(s: string): Option<int>
  {
    var ds := DigitPrefix(Unsigned(s));
    var magnitude: int := DigitsValue(ds);
    if ds == [] then None
    else if |s| > 0 && s[0] == '-' then Some(-magnitude)
    else Some(magnitude)
  }

  /** Decimal digits of a natural number, without leading zeros. */
  function NatText(n: nat): (ds: string)
    ensures |ds| > 0 && AllDigits(ds)
    ensures |ds| > 1 ==> ds[0] != '0'
  {
    if n < 10 then [DigitChar(n)] else NatText(n / 10) + [DigitChar(n % 10)]
  }

  /** The text `${n}` produces for an integral number (negative zero, which
      `parseInt("-0")` yields, prints as "0", as the integer 0 does here). */
  function IntText(n: int): string {
    if n < 0 then "-" + NatText(-n) else NatText(n)
  }

  /** The text `${v}` produces for the result of `parseInt`. */
  function ParsedText(v: Option<int>): string {
    match v
    case None => "NaN"
    case Some(n) => IntText(n)
  }

  lemma {:induction false} NatTextValue(n: nat)
    ensures DigitsValue(NatText(n)) == n
  {
    if n >= 10 {
      var ds := NatText(n);
      assert ds[..|ds| - 1] == NatText(n / 10);
      NatTextValue(n / 10);
    }
  }

  /** A digit run followed by text that does not start with a digit has that
      run as its digit prefix. */
  lemma {:induction false} DigitPrefixStops(ds: string, rest: string)
    requires AllDigits(ds)
    requires rest == [] || !IsDigit(rest[0])
    ensures DigitPrefix(ds + rest) == ds
  {
    if ds != [] {
      assert (ds + rest)[1..] == ds[1..] + rest;
      DigitPrefixStops(ds[1..], rest);
    } else {
      assert ds + rest == rest;
    }
  }

  /** Rendering an integer and parsing it back gives the integer. */
  lemma ParseIntText(n: int)
    ensures ParseInt(IntText(n)) == Some(n)
  {
    var m: nat := if n < 0 then -n else n;
    var ds := NatText(m);
    DigitPrefixStops(ds, []);
    assert ds + [] == ds;
    NatTextValue(m);
    assert Unsigned(IntText(n)) == ds;
  }

  /** Unsigned text starting with a digit run parses to the run's value. */
  lemma ParseIntDigits(ds: string, rest: string)
    requires ds != [] && AllDigits(ds)
    requires rest == [] || !IsDigit(rest[0])
    ensures ParseInt(ds + rest) == Some(DigitsValue(ds))
  {
    var s := ds + rest;
    assert s[0] == ds[0];
    assert Unsigned(s) == s;
    DigitPrefixStops(ds, rest);
  }

  /** One leading sign is stripped and then applied (a second sign is not
      accepted: the digits must follow at once). */
  lemma ParseIntSigned(c: char, body: string)
    requires c == '-' || c == '+'
    requires body == [] || (body[0] != '-' && body[0] != '+')
    ensures ParseInt([c] + body) == match ParseInt(body)
      case None => None
      case Some(v) => if c == '-' then Some(-v) else Some(v)
  {
    var s := [c] + body;
    assert s[1..] == body;
    assert Unsigned(s) == body;
    assert Unsigned(body) == body;
  }

  /** Text with no digit after the optional sign parses to NaN. */
  lemma ParseIntNoDigits(s: string)
    requires Unsigned(s) == [] || !IsDigit(Unsigned(s)[0])
    ensures ParseInt(s) == None
  {
  }

  /** parseInt("6.7") is 6, parseInt("-0") is (negative) zero and
      parseInt("abc") is NaN. */
  lemma ParseIntExamples()
    ensures ParseInt("6.7") == Some(6)
    ensures ParseInt("-0") == Some(0)
    ensures ParseInt("abc") == None
  {
    ParseIntDigits("6", ".7");
    assert "6" + ".7" == "6.7";
    ParseIntDigits("0", "");
    assert "0" + "" == "0";
    ParseIntSigned('-', "0");
    assert ['-'] + "0" == "-0";
  }
}

=== FILE: js_string.dfy ===
/** JavaScript string length for strings of Unicode scalar values.
    JavaScript stores a string as UTF-16 code units, and `.length` (which
    zod's `.min(n)` compares against) counts code units: a character outside
    the Basic Multilingual Plane is stored as a surrogate pair and counts
    twice.  A Dafny string cannot hold an unpaired surrogate, so such
    JavaScript strings have no counterpart here. */
module JsString {

  /** Number of UTF-16 code units needed for one Unicode scalar value. */
  function CodeUnits(c: char): (n: nat)
    ensures 1 <= n <= 2
  {
    if c as int > 0xFFFF then 2 else 1
  }

  /** The JavaScript `.length` of a string of Unicode scalar values. */
  function Utf16Length(s: string): (n: nat)
    ensures |s| <= n <= 2 * |s|
    ensures n == 0 <==> s == []
  {
    if s == [] then 0 else CodeUnits(s[0]) + Utf16Length(s[1..])
  }

  /** A string is at least one code unit long exactly when it is non-empty. */
  lemma Utf16NonEmpty(s: string)
    ensures Utf16Length(s) >= 1 <==> s != []
  {
  }

  /** A string is shorter than two code units exactly when it is empty or a
      single character of the Basic Multilingual Plane. */
  lemma {:induction false} Utf16ShorterThanTwo(s: string)
    ensures Utf16Length(s) < 2 <==> s == [] || (|s| == 1 && s[0] as int <= 0xFFFF)
  {
    if |s| >= 2 {
      assert Utf16Length(s) >= |s|;
    } else if |s| == 1 {
      assert s[1..] == [];
    }
  }
}

=== FILE: local_store.dfy ===
/** The browser's `localStorage` as an immutable string-keyed map, and the
    side effects a submission handler performs, recorded as a trace.  Only
    `RemoveItem` and `SetItem` touch the store; `Notify` (a toast) and
    `Complete` (the caller's completion callback) are observable events that
    leave it alone. */
module LocalStore {
  import opened Wrappers

  type Store<V> = map<string, V>

  datatype Effect<V> =
    | RemoveItem(key: string)
    | SetItem(key: string, value: V)
    | Notify(title: string, description: string)
    | Complete

  /** Looks a key up: `getItem` answers null (None) for a missing key. */
  function GetItem<V>(store: Store<V>, key: string): Option<V> {
    if key in store then Some(store[key]) else None
  }

  /** The store after one effect: a written key reads back the written value,
      a removed key reads back as missing, and every other key reads as
      before. */
  function Step<V>(store: Store<V>, e: Effect<V>): (r: Store<V>)
    ensures e.SetItem? ==> GetItem(r, e.key) == Some(e.value)
    ensures e.RemoveItem? ==> GetItem(r, e.key) == None
    ensures forall k :: !((e.RemoveItem? || e.SetItem?) && k == e.key) ==> GetItem(r, k) == GetItem(store, k)
  {
    match e
    case RemoveItem(k) => store - {k}
    case SetItem(k, v) => store[k := v]
    case _ => store
  }

  /** Performs a trace of effects from first to last. */
  function Run<V>(store: Store<V>, trace: seq<Effect<V>>): Store<V>
    decreases |trace|
  {
    if trace == [] then store else Run(Step(store, trace[0]), trace[1..])
  }

  /** Reference reading of a trace, scanning it backwards: the value a key
      holds afterwards is set by the last effect that touched it, and is the
      original value if no effect touched it. */
  function ValueAfter<V>(store: Store<V>, trace: seq<Effect<V>>, key: string): Option<V>
    decreases |trace|
  {
    if trace == [] then GetItem(store, key)
    else
      var last := trace[|trace| - 1];
      if last.SetItem? && last.key == key then Some(last.value)
      else if last.RemoveItem? && last.key == key then None
      else ValueAfter(store, trace[..|trace| - 1], key)
  }

  /** The keys a trace removes or writes. */
  function Touched<V>(trace: seq<Effect<V>>): set<string>
  {
    set i | 0 <= i < |trace| && (trace[i].RemoveItem? || trace[i].SetItem?) :: trace[i].key
  }

  /** Running a trace in two pieces is running it whole. */
  lemma {:induction false} RunAppend<V>(store: Store<V>, a: seq<Effect<V>>, b: seq<Effect<V>>)
    ensures Run(store, a + b) == Run(Run(store, a), b)
    decreases |a|
  {
    if a == [] {
      assert a + b == b;
    } else {
      assert (a + b)[1..] == a[1..] + b;
      RunAppend(Step(store, a[0]), a[1..], b);
    }
  }

  /** The forward run agrees with the backward reading on every key. */
  lemma {:induction false} RunMatchesValueAfter<V>(store: Store<V>, trace: seq<Effect<V>>, key: string)
    ensures GetItem(Run(store, trace), key) == ValueAfter(store, trace, key)
    decreases |trace|
  {
    if trace != [] {
      var init := trace[..|trace| - 1];
      var last := trace[|trace| - 1];
      assert trace == init + [last];
      RunAppend(store, init, [last]);
      RunMatchesValueAfter(store, init, key);
    }
  }

  /** Keys no effect touches keep their value, and stay absent if absent:
      the frame rule a handler's trace inherits (see
      `Onboarding.SubmitEffectsFrame`). */
  lemma {:induction false} RunFramesUntouched<V>(store: Store<V>, trace: seq<Effect<V>>, key: string)
    requires key !in Touched(trace)
    ensures GetItem(Run(store, trace), key) == GetItem(store, key)
  {
    RunMatchesValueAfter(store, trace, key);
    ValueAfterUntouched(store, trace, key);
  }

  lemma {:induction false} ValueAfterUntouched<V>(store: Store<V>, trace: seq<Effect<V>>, key: string)
    requires key !in Touched(trace)
    ensures ValueAfter(store, trace, key) == GetItem(store, key)
    decreases |trace|
  {
    if trace != [] {
      var init := trace[..|trace| - 1];
      assert forall i :: 0 <= i < |init| ==> init[i] == trace[i];
      assert key !in Touched(init);
      ValueAfterUntouched(store, init, key);
    }
  }

  /** How many times the completion callback fires in a trace. */
  function CompleteCount<V>(trace: seq<Effect<V>>): nat
    decreases |trace|
  {
    if trace == [] then 0 else (if trace[0].Complete? then 1 else 0) + CompleteCount(trace[1..])
  }

  /** The position of the first completion callback in a trace, or the
      trace's length if it never fires. */
  function FirstComplete<V>(trace: seq<Effect<V>>): nat
    decreases |trace|
  {
    if trace == [] || trace[0].Complete? then 0 else 1 + FirstComplete(trace[1..])
  }

  /** A trace that ends with the completion callback, and fires it nowhere else. */
  predicate CompletesLast<V>(trace: seq<Effect<V>>) {
    && |trace| > 0
    && trace[|trace| - 1].Complete?
    && forall i :: 0 <= i < |trace| - 1 ==> !trace[i].Complete?
  }

  /** Completing last means completing exactly once, after every store write. */
  lemma {:induction false} CompletesLastOnce<V>(trace: seq<Effect<V>>)
    requires CompletesLast(trace)
    ensures CompleteCount(trace) == 1
    ensures FirstComplete(trace) == |trace| - 1
    ensures forall i :: 0 <= i < |trace| && (trace[i].RemoveItem? || trace[i].SetItem?) ==> i < FirstComplete(trace)
    decreases |trace|
  {
    if |trace| > 1 {
      var tail := trace[1..];
      assert forall i :: 0 <= i < |tail| - 1 ==> tail[i] == trace[i + 1];
      CompletesLastOnce(tail);
    } else {
      assert trace[1..] == [];
    }
  }
}

=== FILE: onboarding.dfy ===
/** Submitting the onboarding form: validated values replace the stored user
    profile, mark onboarding complete, and replace any stored goals with a
    single savings goal derived from the values; then the user is greeted and
    the caller is told onboarding is done. */
module Onboarding {
  import opened Wrappers
  import opened Schema
  import opened LocalStore
  import JsNumber

  /** A JavaScript number as `parseFloat` can produce it. */
  datatype Float = Finite(value: real) | NaN | Infinity | NegInfinity

  /** The goal record `onSubmit` builds and stores (OnboardingForm.tsx:81-89). */
  datatype Goal = Goal(id: int, name: string, target: Float, current: Float, timeline: string)

  /** The structured values this component writes to the store, in place of
      their JSON text. */
  datatype StoreValue =
    | Text(text: string)
    | UserData(profile: Profile)
    | GoalList(goals: seq<Goal>)

  const GoalsKey: string := "financialGoals"
  const UserDataKey: string := "userData"
  const FlagKey: string := "onboardingComplete"

  /** The keys a submission writes. */
  const ManagedKeys: set<string> := {GoalsKey, UserDataKey, FlagKey}

  const GoalId: int := 1
  const GoalName: string := "Savings Target"
  const WelcomeTitle: string := "Welcome to FinPlan Pro!"
  const WelcomeDescription: string := "Your financial journey starts now."

  /** The goal's timeline: `${parseInt(timeframe)} months`. */
  function Timeline(timeframe: string): string {
    JsNumber.ParsedText(JsNumber.ParseInt(timeframe)) + " months"
  }

  /** The goal derived from the submitted values; `parseFloat` is supplied by
      the caller, since floating-point parsing is not modelled. */
  function InitialGoal(p: Profile, parseFloat: string -> Float): Goal {
    Goal(GoalId, GoalName, parseFloat(p.savingsGoal), parseFloat(p.currentSavings), Timeline(p.timeframe))
  }

  /** The shape of the goal list a submission leaves behind. */
  predicate IsInitialGoalList(v: StoreValue, p: Profile, parseFloat: string -> Float) {
    && v.GoalList?
    && |v.goals| == 1
    && v.goals[0].id == 1
    && v.goals[0].name == "Savings Target"
    && v.goals[0].target == parseFloat(p.savingsGoal)
    && v.goals[0].current == parseFloat(p.currentSavings)
    && v.goals[0].timeline == Timeline(p.timeframe)
  }

  /** The store writes of a submission, one after the other. */
  function Commit(store: Store<StoreValue>, p: Profile, parseFloat: string -> Float): (r: Store<StoreValue>)
    ensures r.Keys == store.Keys + ManagedKeys
    ensures r[UserDataKey] == UserData(p)
    ensures r[FlagKey] == Text("true")
    ensures IsInitialGoalList(r[GoalsKey], p, parseFloat)
    ensures forall k :: k in store && k !in ManagedKeys ==> r[k] == store[k]
  {
    var cleared := Step(store, RemoveItem(GoalsKey));
    var saved := Step(cleared, SetItem(UserDataKey, UserData(p)));
    var flagged := Step(saved, SetItem(FlagKey, Text("true")));
    Step(flagged, SetItem(GoalsKey, GoalList([InitialGoal(p, parseFloat)])))
  }

  /** Everything the submit handler does, in program order. */
  function SubmitEffects(p: Profile, parseFloat: string -> Float): seq<Effect<StoreValue>> {
    [ RemoveItem(GoalsKey),
      SetItem(UserDataKey, UserData(p)),
      SetItem(FlagKey, Text("true")),
      SetItem(GoalsKey, GoalList([InitialGoal(p, parseFloat)])),
      Notify(WelcomeTitle, WelcomeDescription),
      Complete ]
  }

  /** Performing the handler's effects in order yields the committed store. */
  lemma SubmitEffectsCommit(store: Store<StoreValue>, p: Profile, parseFloat: string -> Float)
    ensures Run(store, SubmitEffects(p, parseFloat)) == Commit(store, p, parseFloat)
  {
    var t := SubmitEffects(p, parseFloat);
    var s1 := Step(store, t[0]);
    var s2 := Step(s1, t[1]);
    var s3 := Step(s2, t[2]);
    var s4 := Step(s3, t[3]);
    calc {
      Run(store, t);
      Run(s1, t[1..]);
      { assert t[1..][1..] == t[2..]; }
      Run(s2, t[2..]);
      { assert t[2..][1..] == t[3..]; }
      Run(s3, t[3..]);
      { assert t[3..][1..] == t[4..]; }
      Run(s4, t[4..]);
      { assert t[4..][1..] == t[5..]; }
      Run(s4, t[5..]);
      { assert t[5..][1..] == []; }
      s4;
    }
  }

  /** The handler makes its four store writes first, removing the goal list
      before rewriting it; then it shows the welcome toast, and it calls
      `onComplete` exactly once, as its last act. */
  lemma SubmitEffectsOrder(p: Profile, parseFloat: string -> Float)
    ensures var t := SubmitEffects(p, parseFloat);
      && |t| == 6
      && t[0] == RemoveItem(GoalsKey)
      && t[1] == SetItem(UserDataKey, UserData(p))
      && t[2] == SetItem(FlagKey, Text("true"))
      && t[3].SetItem? && t[3].key == GoalsKey
      && CompletesLast(t)
      && CompleteCount(t) == 1
      && t[|t| - 2] == Notify("Welcome to FinPlan Pro!", "Your financial journey starts now.")
      && (forall i :: 0 <= i < |t| - 2 ==> t[i].RemoveItem? || t[i].SetItem?)
  {
    CompletesLastOnce(SubmitEffects(p, parseFloat));
  }

  /** The handler's trace writes or removes exactly the three managed keys,
      so performing it leaves every other key as it was. */
  lemma SubmitEffectsFrame(store: Store<StoreValue>, p: Profile, parseFloat: string -> Float)
    ensures Touched(SubmitEffects(p, parseFloat)) == ManagedKeys
    ensures forall k :: k !in ManagedKeys ==> GetItem(Run(store, SubmitEffects(p, parseFloat)), k) == GetItem(store, k)
  {
    var t := SubmitEffects(p, parseFloat);
    assert t[0].key == GoalsKey && t[1].key == UserDataKey && t[2].key == FlagKey;
    assert Touched(t) == ManagedKeys;
    forall k | k !in ManagedKeys
      ensures GetItem(Run(store, t), k) == GetItem(store, k)
    {
      RunFramesUntouched(store, t, k);
    }
  }

  /** Two stores that agree outside the submission's keys commit to the same store. */
  lemma CommitForgetsManagedKeys(s1: Store<StoreValue>, s2: Store<StoreValue>, p: Profile, parseFloat: string -> Float)
    requires forall k :: k !in ManagedKeys ==> GetItem(s1, k) == GetItem(s2, k)
    ensures Commit(s1, p, parseFloat) == Commit(s2, p, parseFloat)
  {
    var r1 := Commit(s1, p, parseFloat);
    var r2 := Commit(s2, p, parseFloat);
    forall k ensures k in r1 <==> k in r2 {
      if k !in ManagedKeys {
        assert GetItem(s1, k) == GetItem(s2, k);
      }
    }
    assert r1.Keys == r2.Keys;
    forall k | k in r1 ensures r1[k] == r2[k] {
      if k !in ManagedKeys {
        assert GetItem(s1, k) == GetItem(s2, k);
      }
    }
  }

  /** A later submission replaces everything an earlier one wrote: nothing is
      merged, and earlier goals do not survive. */
  lemma LastSubmissionWins(store: Store<StoreValue>, p1: Profile, p2: Profile, parseFloat: string -> Float)
    ensures Commit(Commit(store, p1, parseFloat), p2, parseFloat) == Commit(store, p2, parseFloat)
  {
    var first := Commit(store, p1, parseFloat);
    forall k | k !in ManagedKeys ensures GetItem(first, k) == GetItem(store, k) {
      assert k in first <==> k in store;
    }
    CommitForgetsManagedKeys(first, store, p2, parseFloat);
  }

  /** Submitting the same values twice leaves the store as submitting once. */
  lemma CommitIdempotent(store: Store<StoreValue>, p: Profile, parseFloat: string -> Float)
    ensures Commit(Commit(store, p, parseFloat), p, parseFloat) == Commit(store, p, parseFloat)
  {
    LastSubmissionWins(store, p, p, parseFloat);
  }

  /** If a write fails after the old goals are removed but before the new
      list is written, the store is left with no goal list at all. */
  lemma InterruptedCommitLosesGoals(store: Store<StoreValue>, p: Profile, parseFloat: string -> Float, n: nat)
    requires 1 <= n <= 3
    ensures GoalsKey !in Run(store, SubmitEffects(p, parseFloat)[..n])
  {
    var full := SubmitEffects(p, parseFloat);
    var t := full[..n];
    RunMatchesValueAfter(store, t, GoalsKey);
    assert full[..1] == [RemoveItem(GoalsKey)];
    assert ValueAfter(store, full[..1], GoalsKey) == None;
    if n >= 2 {
      assert full[..2][..1] == full[..1];
      assert ValueAfter(store, full[..2], GoalsKey) == None;
    }
    if n == 3 {
      assert full[..3][..2] == full[..2];
    }
  }

  /** The result of pressing submit: the validation messages shown, the
      store afterwards, and what the handler did. */
  datatype Submission = Submission(errors: map<Field, string>, store: Store<StoreValue>, trace: seq<Effect<StoreValue>>)

  /** The form's submit: the handler runs only on values that validate. */
  function HandleSubmit(store: Store<StoreValue>, raw: RawInput, parseFloat: string -> Float): (o: Submission)
    ensures o.store == Run(store, o.trace)
    ensures Validate(raw).Failure? ==> o.errors == Validate(raw).error && o.errors != map[] && o.trace == [] && o.store == store
    ensures Validate(raw).Success? ==>
      && o.errors == map[]
      && CompletesLast(o.trace)
      && o.store == Commit(store, Validate(raw).value, parseFloat)
  {
    match Validate(raw)
    case Failure(errors) =>
      assert exists f :: !Passes(raw, f);
      Submission(errors, store, [])
    case Success(p) =>
      SubmitEffectsCommit(store, p, parseFloat);
      SubmitEffectsOrder(p, parseFloat);
      Submission(map[], Commit(store, p, parseFloat), SubmitEffects(p, parseFloat))
  }

  /** A fractional timeframe is truncated: "6.7" gives "6 months". */
  lemma TimelineDropsFraction()
    ensures Timeline("6.7") == "6 months"
  {
    JsNumber.ParseIntExamples();
    assert JsNumber.NatText(6) == "6";
  }

  /** A whole timeframe is kept: "12" gives "12 months". */
  lemma TimelineWholeMonths()
    ensures Timeline("12") == "12 months"
  {
    assert JsNumber.IntText(12) == "12" by {
      assert JsNumber.NatText(1) == "1";
    }
    JsNumber.ParseIntText(12);
  }

  /** A timeframe with no leading digits gives "NaN months". */
  lemma TimelineNotANumber()
    ensures Timeline("abc") == "NaN months"
  {
    JsNumber.ParseIntExamples();
  }

  /** For a timeframe of digits followed by a fraction or other text, the
      timeline is the digits' value in decimal followed by " months". */
  lemma TimelineTruncates(ds: string, rest: string)
    requires ds != [] && JsNumber.AllDigits(ds)
    requires rest == [] || !JsNumber.IsDigit(rest[0])
    ensures Timeline(ds + rest) == JsNumber.IntText(JsNumber.DigitsValue(ds)) + " months"
  {
    JsNumber.ParseIntDigits(ds, rest);
  }

  /** A typical complete submission: it validates, and the store ends up
      with the profile, the flag and one goal. */
  lemma TypicalSubmission(store: Store<StoreValue>, parseFloat: string -> Float)
    ensures var raw := RawInput("Asha", "50000", "10000", "20000", "5000", "100000", "12", Some("medium"));
      var o := HandleSubmit(store, raw, parseFloat);
      && o.errors == map[]
      && o.store[UserDataKey] == UserData(Profile("Asha", "50000", "10000", "20000", "5000", "100000", "12", "medium"))
      && o.store[FlagKey] == Text("true")
      && o.store[GoalsKey] == GoalList([Goal(1, "Savings Target", parseFloat("100000"), parseFloat("10000"), "12 months")])
  {
    var raw := RawInput("Asha", "50000", "10000", "20000", "5000", "100000", "12", Some("medium"));
    var p := Profile("Asha", "50000", "10000", "20000", "5000", "100000", "12", "medium");
    ValidateAcceptsValid(p);
    assert p.AsInput() == raw;
    TimelineWholeMonths();
  }
}

=== FILE: schema.dfy ===
/** The onboarding form's validation schema: eight fields, one rule each, all
    checked (not stopping at the first failure), and either the validated
    profile or one message per failing field. */
module Schema {
  import opened Wrappers
  import JsString

  datatype Field =
    | Name
    | Income
    | CurrentSavings
    | MonthlyExpenses
    | CurrentInvestments
    | SavingsGoal
    | Timeframe
    | RiskTolerance

  /** The fields in the order the schema declares them. */
  const FieldOrder: seq<Field> :=
    [Name, Income, CurrentSavings, MonthlyExpenses, CurrentInvestments, SavingsGoal, Timeframe, RiskTolerance]

  /** The form's values as submitted.  The seven text inputs always hold a
      string (their default is "").  The risk tolerance is `None` when its
      value is undefined, the case the schema's `required_error` answers;
      this form itself always supplies a string there (see `Defaults`). */
  datatype RawInput = RawInput(
    name: string,
    income: string,
    currentSavings: string,
    monthlyExpenses: string,
    currentInvestments: string,
    savingsGoal: string,
    timeframe: string,
    riskTolerance: Option<string>)
  {
    function Get(f: Field): Option<string> {
      match f
      case Name => Some(name)
      case Income => Some(income)
      case CurrentSavings => Some(currentSavings)
      case MonthlyExpenses => Some(monthlyExpenses)
      case CurrentInvestments => Some(currentInvestments)
      case SavingsGoal => Some(savingsGoal)
      case Timeframe => Some(timeframe)
      case RiskTolerance => riskTolerance
    }
  }

  /** The schema's output type: every field a string. */
  datatype Profile = Profile(
    name: string,
    income: string,
    currentSavings: string,
    monthlyExpenses: string,
    currentInvestments: string,
    savingsGoal: string,
    timeframe: string,
    riskTolerance: string)
  {
    function Get(f: Field): string {
      match f
      case Name => name
      case Income => income
      case CurrentSavings => currentSavings
      case MonthlyExpenses => monthlyExpenses
      case CurrentInvestments => currentInvestments
      case SavingsGoal => savingsGoal
      case Timeframe => timeframe
      case RiskTolerance => riskTolerance
    }

    /** The form values this profile came from. */
    function AsInput(): (raw: RawInput)
      ensures forall f :: raw.Get(f) == Some(Get(f))
    {
      RawInput(name, income, currentSavings, monthlyExpenses, currentInvestments, savingsGoal, timeframe, Some(riskTolerance))
    }
  }

  /** A field's rule: a string of at least `min` UTF-16 code units, or just a
      string of any length. */
  datatype Rule = MinLength(min: nat) | Present

  function RuleOf(f: Field): Rule {
    match f
    case Name => MinLength(2)
    case RiskTolerance => Present
    case _ => MinLength(1)
  }

  /** The message the schema attaches to a field's rule. */
  function Message(f: Field): string {
    match f
    case Name => "Name must be at least 2 characters."
    case Income => "Please enter your monthly income."
    case CurrentSavings => "Please enter your current savings amount."
    case MonthlyExpenses => "Please enter your monthly expenses."
    case CurrentInvestments => "Please enter your current investments value."
    case SavingsGoal => "Please enter your savings goal."
    case Timeframe => "Please enter your savings timeframe in months."
    case RiskTolerance => "Please select your risk tolerance."
  }

  /** Whether a field's value meets its rule. */
  predicate Passes(raw: RawInput, f: Field) {
    var v := raw.Get(f);
    match RuleOf(f)
    case MinLength(min) => v.Some? && JsString.Utf16Length(v.value) >= min
    case Present => v.Some?
  }

  lemma AllFieldsListed(f: Field)
    ensures f in FieldOrder
  {
    match f
    case Name => assert FieldOrder[0] == f;
    case Income => assert FieldOrder[1] == f;
    case CurrentSavings => assert FieldOrder[2] == f;
    case MonthlyExpenses => assert FieldOrder[3] == f;
    case CurrentInvestments => assert FieldOrder[4] == f;
    case SavingsGoal => assert FieldOrder[5] == f;
    case Timeframe => assert FieldOrder[6] == f;
    case RiskTolerance => assert FieldOrder[7] == f;
  }

  /** The failing fields, each with its message. */
  function Errors(raw: RawInput): (errors: map<Field, string>)
    ensures forall f :: f in errors <==> !Passes(raw, f)
    ensures forall f :: f in errors ==> errors[f] == Message(f)
  {
    forall f ensures f in FieldOrder { AllFieldsListed(f); }
    map f | f in FieldOrder && !Passes(raw, f) :: Message(f)
  }

  /** Parses the form values against the schema: every rule is checked, and
      the values come back unchanged when all pass. */
  function Validate(raw: RawInput): (r: Result<Profile, map<Field, string>>)
    ensures r.Success? <==> forall f :: Passes(raw, f)
    ensures r.Success? ==> forall f :: raw.Get(f) == Some(r.value.Get(f))
    ensures r.Failure? ==> forall f :: f in r.error <==> !Passes(raw, f)
    ensures r.Failure? ==> forall f :: f in r.error ==> r.error[f] == Message(f)
  {
    var errors := Errors(raw);
    if errors == map[] then
      assert Passes(raw, RiskTolerance) by { assert RiskTolerance !in errors; }
      Success(Profile(raw.name, raw.income, raw.currentSavings, raw.monthlyExpenses,
                      raw.currentInvestments, raw.savingsGoal, raw.timeframe, raw.riskTolerance.value))
    else
      Failure(errors)
  }

  /** The object parser's walk over the schema's fields: each field is
      checked in declaration order, a failing field adds its message, and
      the walk never stops early. */
  method ParseForm(raw: RawInput) returns (r: Result<Profile, map<Field, string>>)
    ensures r == Validate(raw)
  {
    var errors: map<Field, string> := map[];
    var i := 0;
    while i < |FieldOrder|
      invariant 0 <= i <= |FieldOrder|
      invariant forall f :: f in errors <==> f in FieldOrder[..i] && !Passes(raw, f)
      invariant forall f :: f in errors ==> errors[f] == Message(f)
    {
      var f := FieldOrder[i];
      assert FieldOrder[..i + 1] == FieldOrder[..i] + [f];
      if !Passes(raw, f) {
        errors := errors[f := Message(f)];
      }
      i := i + 1;
    }
    assert FieldOrder[..i] == FieldOrder;
    assert errors == Errors(raw) by {
      forall f ensures f in errors <==> !Passes(raw, f) { AllFieldsListed(f); }
    }
    if errors == map[] {
      assert Passes(raw, RiskTolerance) by { assert RiskTolerance !in Errors(raw); }
      r := Success(Profile(raw.name, raw.income, raw.currentSavings, raw.monthlyExpenses,
                           raw.currentInvestments, raw.savingsGoal, raw.timeframe, raw.riskTolerance.value));
    } else {
      r := Failure(errors);
    }
  }

  /** What validation says about one field: its message, or None if it passed. */
  function ErrorFor(r: Result<Profile, map<Field, string>>, f: Field): Option<string> {
    if r.Failure? && f in r.error then Some(r.error[f]) else None
  }

  /** Validation reports a field exactly when the field fails its rule, and
      then with that field's message. */
  lemma ErrorForField(raw: RawInput, f: Field)
    ensures ErrorFor(Validate(raw), f) == if Passes(raw, f) then None else Some(Message(f))
  {
    var r := Validate(raw);
    if r.Success? {
      assert Passes(raw, f);
    }
  }

  /** The name needs two UTF-16 code units: an empty name or a single
      Basic Multilingual Plane character is rejected with the name message. */
  lemma NameRule(raw: RawInput)
    ensures ErrorFor(Validate(raw), Name)
      == if JsString.Utf16Length(raw.name) < 2 then Some("Name must be at least 2 characters.") else None
    ensures ErrorFor(Validate(raw), Name).Some?
      <==> raw.name == [] || (|raw.name| == 1 && raw.name[0] as int <= 0xFFFF)
  {
    ErrorForField(raw, Name);
    JsString.Utf16ShorterThanTwo(raw.name);
  }

  /** The six fields whose rule is a non-empty string. */
  predicate IsAmount(f: Field) {
    f != Name && f != RiskTolerance
  }

  /** An amount field is rejected exactly when it is empty, with its own
      message; its text is not required to be a number. */
  lemma AmountRule(raw: RawInput, f: Field)
    requires IsAmount(f)
    ensures ErrorFor(Validate(raw), f) == if raw.Get(f) == Some("") then Some(Message(f)) else None
  {
    ErrorForField(raw, f);
    JsString.Utf16NonEmpty(raw.Get(f).value);
  }

  /** Risk tolerance is rejected only when unset; any string, the empty
      default and values other than low/medium/high included, passes. */
  lemma RiskToleranceRule(raw: RawInput)
    ensures ErrorFor(Validate(raw), RiskTolerance)
      == if raw.riskTolerance.None? then Some("Please select your risk tolerance.") else None
  {
    ErrorForField(raw, RiskTolerance);
  }

  /** A validated profile: what validation accepts. */
  predicate Valid(p: Profile) {
    && JsString.Utf16Length(p.name) >= 2
    && p.income != "" && p.currentSavings != "" && p.monthlyExpenses != ""
    && p.currentInvestments != "" && p.savingsGoal != "" && p.timeframe != ""
  }

  /** Whatever validation accepts is a valid profile equal, field for field,
      to the submitted values: no trimming and no numeric coercion. */
  lemma ValidateOnlyValid(raw: RawInput, p: Profile)
    requires Validate(raw) == Success(p)
    ensures Valid(p) && raw == p.AsInput()
  {
    assert Passes(raw, Name) && Passes(raw, Income) && Passes(raw, CurrentSavings);
    assert Passes(raw, MonthlyExpenses) && Passes(raw, CurrentInvestments);
    assert Passes(raw, SavingsGoal) && Passes(raw, Timeframe);
    assert raw.Get(Name) == Some(p.Get(Name)) && raw.Get(Income) == Some(p.Get(Income));
    assert raw.Get(CurrentSavings) == Some(p.Get(CurrentSavings));
    assert raw.Get(MonthlyExpenses) == Some(p.Get(MonthlyExpenses));
    assert raw.Get(CurrentInvestments) == Some(p.Get(CurrentInvestments));
    assert raw.Get(SavingsGoal) == Some(p.Get(SavingsGoal));
    assert raw.Get(Timeframe) == Some(p.Get(Timeframe));
    assert raw.Get(RiskTolerance) == Some(p.Get(RiskTolerance));
  }

  /** Every valid profile, submitted as form values, validates to itself. */
  lemma ValidateAcceptsValid(p: Profile)
    requires Valid(p)
    ensures Validate(p.AsInput()) == Success(p)
  {
    var raw := p.AsInput();
    JsString.Utf16NonEmpty(p.income);
    JsString.Utf16NonEmpty(p.currentSavings);
    JsString.Utf16NonEmpty(p.monthlyExpenses);
    JsString.Utf16NonEmpty(p.currentInvestments);
    JsString.Utf16NonEmpty(p.savingsGoal);
    JsString.Utf16NonEmpty(p.timeframe);
    forall f ensures Passes(raw, f) {
      match f
      case Name =>
      case Income =>
      case CurrentSavings =>
      case MonthlyExpenses =>
      case CurrentInvestments =>
      case SavingsGoal =>
      case Timeframe =>
      case RiskTolerance =>
    }
  }

  /** Validation accepts exactly the valid profiles and hands them back unchanged. */
  lemma ValidateRoundTrip(raw: RawInput, p: Profile)
    ensures Validate(raw) == Success(p) <==> Valid(p) && raw == p.AsInput()
  {
    if Validate(raw) == Success(p) {
      ValidateOnlyValid(raw, p);
    }
    if Valid(p) && raw == p.AsInput() {
      ValidateAcceptsValid(p);
    }
  }

  /** The form's initial values. */
  const Defaults: RawInput := RawInput("", "", "", "", "", "", "", Some(""))

  /** Submitting the untouched form reports the seven text fields and not the
      risk tolerance, whose default "" counts as a selection. */
  lemma DefaultsRejected()
    ensures Validate(Defaults).Failure?
    ensures forall f :: f in Validate(Defaults).error <==> f != RiskTolerance
  {
    assert !Passes(Defaults, Name);
    forall f ensures Passes(Defaults, f) <==> f == RiskTolerance {
      match f
      case Name =>
      case Income =>
      case CurrentSavings =>
      case MonthlyExpenses =>
      case CurrentInvestments =>
      case SavingsGoal =>
      case Timeframe =>
      case RiskTolerance =>
    }
  }

  /** Empty text fields with the risk tolerance absent (undefined) report all
      eight fields. */
  lemma EmptyAbsentRejected()
    ensures var r := Validate(RawInput("", "", "", "", "", "", "", None));
      r.Failure? && r.error.Keys == set f | f in FieldOrder
  {
    var raw := RawInput("", "", "", "", "", "", "", None);
    assert !Passes(raw, Name);
    forall f ensures !Passes(raw, f) && f in FieldOrder {
      AllFieldsListed(f);
      match f
      case Name =>
      case Income =>
      case CurrentSavings =>
      case MonthlyExpenses =>
      case CurrentInvestments =>
      case SavingsGoal =>
      case Timeframe =>
      case RiskTolerance =>
    }
  }

  /** Non-numeric amounts pass, and so does a risk tolerance outside the
      select's three options. */
  lemma NoNumericCheck()
    ensures Validate(RawInput("Asha", "abc", "x", "y", "z", "goal", "soon", Some("extreme"))).Success?
  {
    var raw := RawInput("Asha", "abc", "x", "y", "z", "goal", "soon", Some("extreme"));
    forall f ensures Passes(raw, f) {
      match f
      case Name =>
      case Income =>
      case CurrentSavings =>
      case MonthlyExpenses =>
      case CurrentInvestments =>
      case SavingsGoal =>
      case Timeframe =>
      case RiskTolerance =>
    }
  }
}

=== FILE: wrappers.dfy ===
/** Wrappers for absent values and for outcomes that may fail. */
module Wrappers {

  /** A value that may be absent (a form field that was never set, a store
      key with no entry, a number that parsed to NaN). */
  datatype Option<+T> = None | Some(value: T)

  /** Either a successful value or an error value. */
  datatype Result<+R, +E> = Success(value: R) | Failure(error: E)
}
